=== FILE: README.md ===
# Model hot-swap of the new-year AR viewer

The page shows one glTF model at a time. A dropdown offers four catalog entries, and picking
one calls `updateModel(index)`. That call awaits `loadModel(index)`, which fetches
`/models/<entry>`. When the load resolves, it creates a fresh `Object3D` pivot named after the
entry and moves the loaded scene's top-level children into it (the plain variant fills it
before the lookup, the full variant after the removal). It looks up the node named after the
*currently selected* entry and removes it, appends the pivot, and finally sets
`selectedIndex = index`. If the load rejects, nothing happens.

There are two variants of this core:

- **full** (`src/main.old.js`): the pivot goes under the AR marker group, next to the
  transform controls, three lights and a shadow plane. The transform handle is detached
  before the removal and attached to the new pivot afterwards. A traversal marks every loaded
  mesh as casting shadows.
- **plain** (`src/main.js`): the pivot goes directly under the scene, next to three lights.
  There is no handle and no traversal.

The Dafny modules:

- `SceneGraph` (`scene_graph.dfy`): an immutable Object3D tree. Nodes carry an id, a name, a
  mesh flag, `castShadow` and ordered children. It defines `getObjectByName` as a preorder
  search returning a path, `add` (append), `remove` (only a direct child is dropped) and the
  shadow traversal.
- `Swap` (`swap.dfy`): the parts both variants share:
  - the catalog and the initial selection;
  - the state one resolved load reads and writes: the attachment point, the handle's target
    id, `selectedIndex` and three.js's Object3D id counter;
  - the primitive effects of a swap (detach, remove, add, attach, commit), with their
    interpreter and trace;
  - the invariant shape of the attachment point: at most one catalog-named child, named after
    the selected entry; no child other than that pivot contains a node named after an entry (the
    pivot's own loaded content is unconstrained); ids are below the counter.
- `FullSwap` (`full_swap.dfy`) and `PlainSwap` (`plain_swap.dfy`): each variant's
  `updateModel`, written as the list of effects it performs in source order. Each comes with
  these proofs:
  - the invariant survives any load settling, in any order, including re-selection;
  - the lookup finds the outgoing pivot;
  - the fixtures (lights, plane, controls) are never touched;
  - `selectedIndex` is committed last;
  - in the full variant, the handle is never left pointing at a node outside the graph, in
    any state reachable from the page's start.

Every resolved `await` is one atomic transition (`UpdateModel`). Interleavings of several
pending loads are sequences of `Resolution`s folded by `Settle`.

## Model

| member | source | states |
|---|---|---|
| SceneGraph.Find | src/main.old.js:140 | a found path is valid and leads to a node carrying the searched name |
| SceneGraph.FindFirst | src/main.old.js:140 | the lookup fails only when no node has the name, and otherwise returns the first such node in depth-first preorder: no named node precedes it |
| SceneGraph.RemoveDropsOneChild | src/main.old.js:141-144 | removing a direct child drops exactly that child (count, multiset, order of the rest kept); removing the node itself or a deeper descendant changes nothing |
| SceneGraph.RemoveUndoesAdd | src/main.old.js:154 | removing the child just appended gives back the original node |
| SceneGraph.AddKeepsPaths | src/main.old.js:154 | appending keeps every existing node at its path and puts the new child at the end |
| SceneGraph.AddKeepsIds | src/main.old.js:154 | every id in the graph before an append is still in it afterwards |
| SceneGraph.MarkShadowsAt | src/main.old.js:146-150 | the traversal visits every node: the same paths exist and the node at each path is the marked original |
| SceneGraph.ShadowTraversal | src/main.old.js:146-150 | after the traversal every mesh casts shadows, non-meshes keep their flag, and ids, names, kinds and child counts are unchanged |
| SceneGraph.MarkShadowsKeepsIds | src/main.old.js:146-150 | the traversal preserves every id bound in both directions |
| Swap.ModelUrlInjective | src/main.old.js:159-163 | two entries are fetched from the same URL exactly when they are the same entry |
| Swap.CatalogDistinct | src/main.old.js:116-121 | catalog names are pairwise distinct, so a name identifies its entry |
| Swap.Trace | src/main.old.js:133-157 | the trace of a run has one state per step, starts at the given state, ends at the run's result, and each step applies one effect |
| Swap.FreshId | src/main.old.js:134-135 | the new pivot's id is at least the counter and above every id the loader created |
| Swap.LookupFindsPivot | src/main.old.js:140-144 | under the invariant, the lookup by the selected name fails iff there is no pivot, and otherwise finds the single pivot as a direct child while every other child is unnamed |
| Swap.KeptChildren | src/main.old.js:141-155 | a swap keeps exactly the non-pivot children, in order, and appends the new pivot after them |
| Swap.SwapKeepsShape | src/main.old.js:140-156 | after a swap, the new pivot is the only catalog-named child, the other children are unchanged, and names and ids stay within the invariant |
| Swap.SinglePosition | src/main.old.js:140 | a sole catalog-named child sits at one position and every other child is unnamed |
| Swap.DropNamed | src/main.old.js:143 | dropping the sole named child leaves exactly the unnamed children |
| SceneGraph.Without | src/main.old.js:143 | the children with one taken out, as `remove` splices them: one fewer, the rest in order |
| Swap.LastLoaded | src/main.old.js:133-134 | there is no loaded resolution exactly when every resolution was rejected; otherwise the result is the entry of a loaded resolution after which every resolution was rejected |
| Swap.OnlyPivotHasId | src/main.old.js:152-155 | when the pivot's id exceeds every other id in the group, no other node carries it |
| FullSwap.UpdateModel | src/main.old.js:133-157 | a rejected load reports failure and leaves the state as it was; a loaded one selects the entry, and leaves as last child a pivot named after it that holds the marked top-level children of the loaded scene, with the handle on that pivot |
| FullSwap.RunSwapEffects | src/main.old.js:140-156 | the effects in source order remove the outgoing node, append the pivot, point the handle at it and commit the index |
| FullSwap.SwapTrace | src/main.old.js:141-156 | at every intermediate step the handle points at a node in the graph (or at nothing); the handle is empty when the removal happens; `selectedIndex` changes only at the last step |
| FullSwap.RemoveBeforeDetachDangles | src/main.old.js:142-143 | with removal and detach swapped, an intermediate state has the handle pointing at a node no longer in the graph |
| FullSwap.PivotIds | src/main.old.js:135-152 | every id under the new pivot is below the pivot's own |
| FullSwap.UpdateKeepsInv | src/main.old.js:133-157 | any resolved load keeps the invariant (one pivot at most, named after the selection, held by the handle), leaves exactly one pivot when loaded, and keeps the controls, lights and plane in order |
| FullSwap.InvHandleSafe | src/main.old.js:142-155 | whenever the invariant holds, the handle's target is a node in the marker group, so every swap the page performs starts from a state `SwapTrace` covers |
| FullSwap.HandleOnNewPivotOnly | src/main.old.js:141-155 | after a loaded swap, only the new pivot carries the handle's id, and the removed node does not |
| FullSwap.PivotHoldsMarkedScene | src/main.old.js:146-152 | the pivot's descendants are the loaded scene's descendants at the same paths, each with the traversal applied |
| FullSwap.SettleKeepsInv | src/main.old.js:133-157 | any sequence of settled loads keeps the invariant and the fixtures, with exactly one pivot once any load succeeded |
| FullSwap.LastSettledWins | src/main.old.js:133-156 | the entry of the last successful load is selected, whatever order the loads were requested in; if all were rejected nothing changed |
| FullSwap.InitialInv | src/main.old.js:58-110 | the page's starting marker group satisfies the invariant, with every child a fixture |
| FullSwap.SinglePivotFromStart | src/main.old.js:113-157 | from the start state, under any settling order, there is at most one pivot, named after the selected entry and held by the handle; there is exactly one after any success; the fixtures are those of the start; the handle's target is in the graph |
| FullSwap.StartIsInitial | src/main.old.js:58-113 | the marker group the page builds (controls, three lights, plane) is a valid initial state with entry 1 selected |
| FullSwap.SwitchScenario | src/main.old.js:129-157 | after the first load and a switch to entry 2, only entry 2's pivot is present and entry 2 is selected |
| FullSwap.RejectScenario | src/main.old.js:133-134 | a rejected load after the first load leaves entry 1 displayed, selected and held by the handle |
| FullSwap.StaleLoadScenario | src/main.old.js:133-156 | if entry 3 settles before the earlier request for entry 2, entry 2 ends up displayed and selected |
| FullSwap.ReselectReplaces | src/main.old.js:140-156 | re-selecting the shown entry replaces its pivot with a new node instead of adding a second one |
| PlainSwap.UpdateModel | src/main.js:67-80 | a rejected load reports failure and changes nothing; a loaded one selects the entry and leaves as last child a pivot named after it that holds the loaded scene's top-level children unchanged; no handle is involved |
| PlainSwap.RunSwapEffects | src/main.js:73-79 | the effects in source order remove the outgoing node, append the pivot and commit the index |
| PlainSwap.SwapTrace | src/main.js:73-79 | a node is removed only when the lookup found it; `selectedIndex` changes only at the last step |
| PlainSwap.PivotIds | src/main.js:69-71 | every id under the new pivot is strictly below the pivot's own |
| PlainSwap.UpdateKeepsInv | src/main.js:67-80 | any resolved load keeps the shape, leaves exactly one pivot when loaded, and never removes a light |
| PlainSwap.SettleKeepsInv | src/main.js:67-80 | any sequence of settled loads keeps the shape and the lights |
| PlainSwap.LastSettledWins | src/main.js:67-80 | the entry of the last successful load is selected; if all were rejected nothing changed |
| PlainSwap.InitialInv | src/main.js:26-49 | the scene with its three lights satisfies the shape, with every child a fixture |
| PlainSwap.SinglePivotFromStart | src/main.js:49-80 | from the start state, under any settling order, there is at most one pivot, named after the selected entry; there is exactly one after any success; the lights stay |
| PlainSwap.StartIsInitial | src/main.js:21-49 | the scene the page builds (three lights) is a valid initial state with entry 1 selected |
| PlainSwap.ReselectScenario | src/main.js:65-80 | reloading entry 1 right after the first load leaves a single entry-1 pivot and the three lights |

## Left out

- Rendering, the camera, resizing, OrbitControls, dat.gui, the AR toolkit and the animation loop: they do not touch the swap.
- `pivot.translateY(1)`, the GSAP light tween and `Math.random`: positions are not modelled.
- Fetching and parsing glTF: `loadModel` is the `LoadOutcome` parameter, either the loaded scene or a rejection. The URL it fetches is `Swap.ModelUrl`.
- Event-loop scheduling: a pending `await` is not a state. Each resolved load is one atomic step. The order in which loads settle is the free sequence given to `Settle`.
- `src/main.new.js` and `webpack.config.js` are not part of this model.
- Fixture internals: the transform controls, lights and plane are leaves whose names are not catalog names. The gizmo's own sub-objects are not modelled, since no catalog name occurs among them.
- Object3D ids are illustrative. The counter is abstracted as "the pivot's id is above every existing id", and `FreshId` picks the least such value.
- UpdateModel: an index outside the catalog is a precondition. The source never validates it; the dropdown only offers valid indices.
- The full code looks up and removes the outgoing node before it marks the loaded meshes and moves them into the pivot. Neither is in the graph until `markerGroup.add(pivot)`, so the order cannot be observed; the model builds the marked, filled pivot before its first effect.
- `PlainSwap` repeats `Settle`, `SettleKeepsInv`, `LastSettledWins`, `Initial`, `InitialInv` and `SinglePivotFromStart` from `FullSwap`. Each copy folds its own variant's `UpdateModel`, and the full variant's invariant also covers the handle.
- The dropdown's `onChange` handler and the initial `updateModel()` call are not separate members. They are calls of `UpdateModel` with the chosen index, or with `InitialIndex`.

=== FILE: full_swap.dfy ===
/** The full `updateModel`: the swap under the AR marker group, with a transform handle that
    follows the displayed model and a traversal that makes the loaded meshes cast shadows. */
module FullSwap {
  import opened SceneGraph
  import opened Swap

  /** The pivot: a fresh Object3D named after the entry and casting shadows, holding the
      loaded scene's top-level children after the traversal has marked its meshes. */
  function BuildPivot(id: nat, index: CatalogIndex, scene: Node): Node {
    Node(id, Catalog[index], false, true, MarkShadows(scene).children)
  }

  /** The scene operations of one resolved load, in the order the source performs them. */
  function SwapEffects(s: State, index: CatalogIndex, pivot: Node): seq<Effect> {
    (if Outgoing(s).Some? then [Detach, Remove(Outgoing(s).value)] else [])
    + [Add(pivot), Attach(pivot.id), Commit(index)]
  }

  /** Running the effects: the outgoing node is gone, the pivot is the last child, the handle
      holds the pivot, and the new entry is selected. */
  lemma RunSwapEffects(s: State, index: CatalogIndex, pivot: Node, next: nat)
    ensures Run(s.(nextId := next), SwapEffects(s, index, pivot))
            == State(Swapped(s.root, Outgoing(s), pivot), Some(pivot.id), index, next)
  {
    var s0 := s.(nextId := next);
    var es := SwapEffects(s, index, pivot);
    var tail := [Add(pivot), Attach(pivot.id), Commit(index)];
    var s2 := if Outgoing(s).Some? then s0.(handle := None, root := RemoveChild(s.root, Outgoing(s).value)) else s0;
    if Outgoing(s).Some? {
      assert es[1..] == [Remove(Outgoing(s).value)] + tail;
      assert es[1..][1..] == tail;
      assert Run(s0, es) == Run(s2, tail);
    } else {
      assert es == tail;
    }
    var s3 := s2.(root := AddChild(s2.root, pivot));
    var s4 := s3.(handle := Some(pivot.id));
    assert tail[1..] == [Attach(pivot.id), Commit(index)];
    assert tail[1..][1..] == [Commit(index)];
    assert [Commit(index)][1..] == [];
    assert Run(s2, tail) == Run(s3, tail[1..]) == Run(s4, tail[1..][1..]) == s4.(selected := index);
  }

  /** One resolved `updateModel(index)` call. A rejected load changes nothing; a loaded one
      leaves the new pivot, named after the entry and holding the marked top-level children of
      the loaded scene in their order, as the last child, with the handle on it and the entry
      selected. */
  function UpdateModel(s: State, index: nat, load: LoadOutcome): (r: Step)
    requires index < |Catalog|
    ensures load.Rejected? <==> r.outcome == LoadFailure
    ensures load.Rejected? ==> r.state == s
    ensures load.Loaded? ==> r.state.selected == index
    ensures load.Loaded? ==>
              var cs := r.state.root.children;
              && |cs| > 0
              && cs[|cs| - 1].name == Catalog[index]
              && cs[|cs| - 1].children == MarkShadows(load.scene).children
              && r.state.handle == Some(cs[|cs| - 1].id)
  {
    match load
    case Rejected => Step(s, LoadFailure)
    case Loaded(scene) =>
      var id := FreshId(s, scene);
      var pivot := BuildPivot(id, index, scene);
      RunSwapEffects(s, index, pivot, id + 1);
      Step(Run(s.(nextId := id + 1), SwapEffects(s, index, pivot)), Fulfilled)
  }

  /** The handle never points at a node that is not in the graph. */
  ghost predicate HandleSafe(s: State) {
    s.handle.Some? ==> HasId(s.root, s.handle.value)
  }

  /** Every intermediate state of a swap: the handle is let go before the outgoing node is
      removed, so it never points at a node outside the graph, and `selectedIndex` changes
      only with the last operation. */
  lemma SwapTrace(s: State, index: CatalogIndex, pivot: Node, next: nat)
    requires HandleSafe(s)
    ensures var es := SwapEffects(s, index, pivot);
            var t := Trace(s.(nextId := next), es);
            && (forall i :: 0 <= i < |t| ==> HandleSafe(t[i]))
            && (forall i :: 0 <= i < |es| && es[i].Remove? ==> t[i].handle.None?)
            && (forall i :: 0 <= i < |es| ==> t[i].selected == s.selected)
            && t[|es|].selected == index
  {
    var es := SwapEffects(s, index, pivot);
    var t := Trace(s.(nextId := next), es);
    var m := |es| - 3;
    assert es[m] == Add(pivot) && es[m + 1] == Attach(pivot.id) && es[m + 2] == Commit(index);
    if Outgoing(s).Some? {
      assert es[0] == Detach && es[1].Remove?;
      assert t[1].handle.None? && t[2].handle.None?;
    }
    assert t[m].root == t[0].root || t[m].handle.None?;
    assert HandleSafe(t[m]);
    if t[m].handle.Some? {
      AddKeepsIds(t[m].root, pivot, t[m].handle.value);
    }
    AddKeepsPaths(t[m].root, pivot);
    assert ValidPath(t[m + 2].root, [|t[m].root.children|]);
  }

  /** Performing the removal before letting the handle go would leave the handle pointing at
      a node that is no longer in the graph. */
  lemma RemoveBeforeDetachDangles()
    ensures var pivot := Node(1, Catalog[1], false, true, []);
            var s := State(Node(0, "", false, false, [pivot]), Some(1), 1, 2);
            && HandleSafe(s)
            && !HandleSafe(Trace(s, [Remove([0]), Detach])[1])
  {
    var pivot := Node(1, Catalog[1], false, true, []);
    var s := State(Node(0, "", false, false, [pivot]), Some(1), 1, 2);
    ChildPath(s.root, 0, []);
    assert [0] + [] == [0];
    assert ValidPath(s.root, [0]) && At(s.root, [0]).id == 1;
    var s1 := Trace(s, [Remove([0]), Detach])[1];
    assert s1.root == Node(0, "", false, false, []);
    forall p | ValidPath(s1.root, p) ensures At(s1.root, p).id == 0 {
      assert |p| == 0;
    }
  }

  /** The full invariant: the scene shape, and the handle holding the pivot, or nothing while
      there is none. */
  ghost predicate Inv(s: State) {
    && SceneInv(s)
    && s.handle == (if Pivots(s.root) == [] then None else Some(Pivots(s.root)[0].id))
  }

  /** Under the invariant the handle holds a node of the graph: the pivot, a direct child. */
  lemma InvHandleSafe(s: State)
    requires Inv(s)
    ensures HandleSafe(s)
  {
    if Pivots(s.root) != [] {
      var k := SinglePosition(s.root.children, Catalog);
      ChildPath(s.root, k, []);
      assert [k] + [] == [k];
      assert ValidPath(s.root, [k]) && At(s.root, [k]).id == Pivots(s.root)[0].id;
    }
  }

  /** The ids under a freshly built pivot are all below its own. */
  lemma PivotIds(s: State, index: CatalogIndex, scene: Node)
    ensures var pivot := BuildPivot(FreshId(s, scene), index, scene);
            && IdsBelow(pivot, pivot.id + 1)
            && forall c :: c in pivot.children ==> IdsBelow(c, pivot.id)
  {
    var id := FreshId(s, scene);
    var pivot := BuildPivot(id, index, scene);
    MarkShadowsKeepsIds(scene, id);
    IdsBelowUnfold(MarkShadows(scene), id);
    forall j | 0 <= j < |pivot.children| ensures IdsBelow(pivot.children[j], id + 1) {
      IdsBelowRaise(pivot.children[j], id, id + 1);
    }
    IdsBelowUnfold(pivot, id + 1);
  }

  /** A resolved load keeps the invariant, whatever entry it is for and whatever the current
      selection is when it resolves; a loaded one leaves exactly one pivot, and the other
      children of the marker group stay, in their order. */
  lemma UpdateKeepsInv(s: State, index: CatalogIndex, load: LoadOutcome)
    requires Inv(s)
    ensures Inv(UpdateModel(s, index, load).state)
    ensures load.Loaded? ==> |Pivots(UpdateModel(s, index, load).state.root)| == 1
    ensures Fixtures(UpdateModel(s, index, load).state.root) == Fixtures(s.root)
  {
    if load.Loaded? {
      var id := FreshId(s, load.scene);
      var pivot := BuildPivot(id, index, load.scene);
      PivotIds(s, index, load.scene);
      RunSwapEffects(s, index, pivot, id + 1);
      SwapKeepsShape(s.root, Catalog, Catalog[s.selected], s.nextId, pivot, id + 1);
    }
  }

  /** After a loaded swap the handle holds the new pivot and nothing else in the graph carries
      its id; in particular it is not the node that was removed. */
  lemma HandleOnNewPivotOnly(s: State, index: CatalogIndex, scene: Node)
    requires Inv(s)
    ensures var r := UpdateModel(s, index, Loaded(scene)).state;
            var last := |r.root.children| - 1;
            && r.handle == Some(r.root.children[last].id)
            && (forall q :: ValidPath(r.root, q) && At(r.root, q).id == r.handle.value ==> q == [last])
            && (Outgoing(s).Some? ==> At(s.root, Outgoing(s).value).id != r.handle.value)
  {
    var id := FreshId(s, scene);
    var pivot := BuildPivot(id, index, scene);
    PivotIds(s, index, scene);
    RunSwapEffects(s, index, pivot, id + 1);
    var r := UpdateModel(s, index, Loaded(scene)).state;
    var kept := KeptChildren(s.root, Catalog, Catalog[s.selected], s.nextId, pivot);
    IdsBelowUnfold(s.root, s.nextId);
    forall j | 0 <= j < |kept| ensures IdsBelow(kept[j], id) {
      var i :| 0 <= i < |s.root.children| && s.root.children[i] == kept[j];
      IdsBelowRaise(s.root.children[i], s.nextId, id);
    }
    OnlyPivotHasId(r.root, kept, pivot);
  }

  /** The loaded content under the new pivot: the pivot's descendants are exactly the loaded
      scene's descendants at the same places, each after the shadow traversal. So every mesh
      casts shadows and nothing else about any node changed. */
  lemma PivotHoldsMarkedScene(s: State, index: CatalogIndex, scene: Node)
    ensures var cs := UpdateModel(s, index, Loaded(scene)).state.root.children;
            var pivot := cs[|cs| - 1];
            forall p :: |p| > 0 ==>
              && (ValidPath(pivot, p) <==> ValidPath(scene, p))
              && (ValidPath(scene, p) ==> At(pivot, p) == MarkShadows(At(scene, p)))
  {
    var cs := UpdateModel(s, index, Loaded(scene)).state.root.children;
    var pivot := cs[|cs| - 1];
    forall p | |p| > 0
      ensures ValidPath(pivot, p) <==> ValidPath(scene, p)
      ensures ValidPath(scene, p) ==> At(pivot, p) == MarkShadows(At(scene, p))
    {
      MarkShadowsAt(scene, p);
      SameChildrenSamePath(pivot, MarkShadows(scene), p);
    }
  }

  lemma SameChildrenSamePath(a: Node, b: Node, p: Path)
    requires a.children == b.children && |p| > 0
    ensures ValidPath(a, p) <==> ValidPath(b, p)
    ensures ValidPath(a, p) ==> At(a, p) == At(b, p)
  {
  }

  /** The state after the loads that have settled so far, in the order they settled. */
  function Settle(s: State, rs: seq<Resolution>): State
    decreases |rs|
  {
    if |rs| == 0 then s
    else UpdateModel(Settle(s, rs[..|rs| - 1]), rs[|rs| - 1].index, rs[|rs| - 1].load).state
  }

  /** Loads may settle in any order: the invariant holds after every one of them, and the
      other children of the marker group are never removed. */
  lemma {:induction false} SettleKeepsInv(s: State, rs: seq<Resolution>)
    requires Inv(s)
    decreases |rs|
    ensures Inv(Settle(s, rs))
    ensures Fixtures(Settle(s, rs).root) == Fixtures(s.root)
    ensures LastLoaded(rs).Some? ==> |Pivots(Settle(s, rs).root)| == 1
  {
    if |rs| > 0 {
      SettleKeepsInv(s, rs[..|rs| - 1]);
      UpdateKeepsInv(Settle(s, rs[..|rs| - 1]), rs[|rs| - 1].index, rs[|rs| - 1].load);
    }
  }

  /** The load that settles last decides what is shown, not the selection made last; when
      every load was rejected nothing changed at all. */
  lemma {:induction false} LastSettledWins(s: State, rs: seq<Resolution>)
    decreases |rs|
    ensures LastLoaded(rs).Some? ==> Settle(s, rs).selected == LastLoaded(rs).value
    ensures LastLoaded(rs).None? ==> Settle(s, rs) == s
  {
    if |rs| > 0 {
      LastSettledWins(s, rs[..|rs| - 1]);
    }
  }

  /** The state before the first load resolves: entry 1 selected, no handle target, no pivot,
      and nothing under the marker group named after an entry. */
  ghost predicate Initial(s: State) {
    && s.selected == InitialIndex
    && s.handle.None?
    && s.root.name !in Catalog
    && (forall j :: 0 <= j < |s.root.children| ==> AvoidsNames(s.root.children[j], Catalog))
    && IdsBelow(s.root, s.nextId)
  }

  lemma InitialInv(s: State)
    requires Initial(s)
    ensures Inv(s)
    ensures Fixtures(s.root) == s.root.children
  {
    forall j | 0 <= j < |s.root.children| ensures s.root.children[j].name !in Catalog {
      AvoidsNamesUnfold(s.root.children[j], Catalog);
    }
    FilterNone(s.root.children, Catalog, true);
    FilterAll(s.root.children, Catalog, false);
  }

  /** From the initial state, after any loads settling in any order, the marker group holds
      at most one pivot, named after the selected entry and held by the handle, and exactly
      one once a load has succeeded; re-selecting an entry never adds a second one. The
      transform controls, the lights and the plane stay throughout, and the handle never
      holds a node outside the graph. */
  lemma SinglePivotFromStart(s: State, rs: seq<Resolution>)
    requires Initial(s)
    ensures var t := Settle(s, rs);
            && |Pivots(t.root)| <= 1
            && (forall c :: c in Pivots(t.root) ==> c.name == Catalog[t.selected] && t.handle == Some(c.id))
            && (LastLoaded(rs).Some? ==> |Pivots(t.root)| == 1)
            && Fixtures(t.root) == s.root.children
            && HandleSafe(t)
  {
    InitialInv(s);
    SettleKeepsInv(s, rs);
    var t := Settle(s, rs);
    assert Inv(t);
    InvHandleSafe(t);
    assert Fixtures(t.root) == Fixtures(s.root) == s.root.children;
  }

  /** The marker group as the page builds it: the transform controls, an ambient light, two
      directional lights (the first one casting shadows) and the shadow-receiving plane, all
      unnamed. Their ids are illustrative; only their order and freshness matter. */
  const MarkerGroupAtStart: Node :=
    Node(2, "", false, false, [
      Node(3, "", false, false, []),
      Node(4, "", false, false, []),
      Node(5, "", false, true, []),
      Node(6, "", false, false, []),
      Node(7, "", true, false, [])
    ])

  const Start: State := State(MarkerGroupAtStart, None, InitialIndex, 8)

  lemma StartIsInitial()
    ensures Initial(Start)
  {
    var cs := MarkerGroupAtStart.children;
    forall j | 0 <= j < |cs| ensures AvoidsNames(cs[j], Catalog) && IdsBelow(cs[j], 8) {
      AvoidsNamesUnfold(cs[j], Catalog);
      IdsBelowUnfold(cs[j], 8);
    }
    AvoidsNamesUnfold(MarkerGroupAtStart, Catalog);
    IdsBelowUnfold(MarkerGroupAtStart, 8);
  }

  /** The first load brings up entry 1; choosing entry 2 then shows entry 2's pivot and no
      pivot of entry 1, with entry 2 selected. */
  lemma SwitchScenario(b: Node, c: Node)
    ensures var s1 := UpdateModel(Start, InitialIndex, Loaded(b)).state;
            var s2 := UpdateModel(s1, 2, Loaded(c)).state;
            && s2.selected == 2
            && |Pivots(s2.root)| == 1 && Pivots(s2.root)[0].name == Catalog[2]
            && forall j :: 0 <= j < |s2.root.children| ==> s2.root.children[j].name != Catalog[1]
  {
    StartIsInitial();
    InitialInv(Start);
    var s1 := UpdateModel(Start, InitialIndex, Loaded(b)).state;
    UpdateKeepsInv(Start, InitialIndex, Loaded(b));
    UpdateKeepsInv(s1, 2, Loaded(c));
    var s2 := UpdateModel(s1, 2, Loaded(c)).state;
    CatalogDistinct(1, 2);
    var k := SinglePosition(s2.root.children, Catalog);
    forall j | 0 <= j < |s2.root.children| ensures s2.root.children[j].name != Catalog[1] {
      if j != k {
        assert s2.root.children[j].name !in Catalog;
      }
    }
  }

  /** A rejected load after entry 1 is up leaves everything as it was: entry 1 selected, its
      pivot in place and held by the handle. */
  lemma RejectScenario(b: Node)
    ensures var s1 := UpdateModel(Start, InitialIndex, Loaded(b)).state;
            var r := UpdateModel(s1, 2, Rejected);
            && r.outcome == LoadFailure
            && r.state == s1
            && r.state.selected == 1
            && |Pivots(r.state.root)| == 1 && Pivots(r.state.root)[0].name == Catalog[1]
            && r.state.handle == Some(Pivots(r.state.root)[0].id)
  {
    StartIsInitial();
    InitialInv(Start);
    UpdateKeepsInv(Start, InitialIndex, Loaded(b));
  }

  /** Entry 2 is chosen and then entry 3, but entry 3's load settles first: entry 2, the
      earlier choice, ends up displayed and selected. */
  lemma StaleLoadScenario(b: Node, c: Node, d: Node)
    ensures var s1 := UpdateModel(Start, InitialIndex, Loaded(b)).state;
            var s2 := UpdateModel(UpdateModel(s1, 3, Loaded(d)).state, 2, Loaded(c)).state;
            && s2.selected == 2
            && |Pivots(s2.root)| == 1 && Pivots(s2.root)[0].name == Catalog[2]
  {
    StartIsInitial();
    InitialInv(Start);
    var s1 := UpdateModel(Start, InitialIndex, Loaded(b)).state;
    UpdateKeepsInv(Start, InitialIndex, Loaded(b));
    UpdateKeepsInv(s1, 3, Loaded(d));
    UpdateKeepsInv(UpdateModel(s1, 3, Loaded(d)).state, 2, Loaded(c));
  }

  /** Re-selecting the displayed entry reloads it: still exactly one pivot for it, and it is a
      new node, not the old one kept alongside. */
  lemma ReselectReplaces(s: State, scene: Node)
    requires Inv(s) && Pivots(s.root) != []
    ensures var r := UpdateModel(s, s.selected, Loaded(scene)).state;
            && |Pivots(r.root)| == 1
            && Pivots(r.root)[0].name == Catalog[s.selected]
            && Pivots(r.root)[0].id != Pivots(s.root)[0].id
  {
    UpdateKeepsInv(s, s.selected, Loaded(scene));
    var id := FreshId(s, scene);
    var pivot := BuildPivot(id, s.selected, scene);
    RunSwapEffects(s, s.selected, pivot, id + 1);
    SwapKeepsShape(s.root, Catalog, Catalog[s.selected], s.nextId, pivot, id + 1 ) by {
      PivotIds(s, s.selected, scene);
    }
    var k := SinglePosition(s.root.children, Catalog);
    IdsBelowUnfold(s.root, s.nextId);
    IdsBelowUnfold(s.root.children[k], s.nextId);
  }
}

=== FILE: plain_swap.dfy ===
/** The plain `updateModel`: the same swap directly under the scene, with no transform handle
    and no shadow traversal. */
module PlainSwap {
  import opened SceneGraph
  import opened Swap

  /** The pivot: a fresh Object3D named after the entry, holding the loaded scene's
      top-level children exactly as loaded. */
  function BuildPivot(id: nat, index: CatalogIndex, scene: Node): Node {
    Node(id, Catalog[index], false, false, scene.children)
  }

  /** The scene operations of one resolved load, in the order the source performs them. */
  function SwapEffects(s: State, index: CatalogIndex, pivot: Node): seq<Effect> {
    (if Outgoing(s).Some? then [Remove(Outgoing(s).value)] else []) + [Add(pivot), Commit(index)]
  }

  lemma RunSwapEffects(s: State, index: CatalogIndex, pivot: Node, next: nat)
    ensures Run(s.(nextId := next), SwapEffects(s, index, pivot))
            == State(Swapped(s.root, Outgoing(s), pivot), s.handle, index, next)
  {
    var s0 := s.(nextId := next);
    var es := SwapEffects(s, index, pivot);
    var tail := [Add(pivot), Commit(index)];
    var s1 := if Outgoing(s).Some? then s0.(root := RemoveChild(s.root, Outgoing(s).value)) else s0;
    if Outgoing(s).Some? {
      assert es[1..] == tail;
      assert Run(s0, es) == Run(s1, tail);
    } else {
      assert es == tail;
    }
    var s2 := s1.(root := AddChild(s1.root, pivot));
    assert tail[1..] == [Commit(index)];
    assert [Commit(index)][1..] == [];
    assert Run(s1, tail) == Run(s2, tail[1..]) == s2.(selected := index);
  }

  /** One resolved `updateModel(index)` call. A rejected load changes nothing; a loaded one
      leaves the new pivot, named after the entry and holding the loaded scene's top-level
      children in their order, as the last child of the scene, with the entry selected. No
      handle is involved. */
  function UpdateModel(s: State, index: nat, load: LoadOutcome): (r: Step)
    requires index < |Catalog|
    ensures load.Rejected? <==> r.outcome == LoadFailure
    ensures load.Rejected? ==> r.state == s
    ensures load.Loaded? ==> r.state.selected == index
    ensures load.Loaded? ==>
              var cs := r.state.root.children;
              && |cs| > 0
              && cs[|cs| - 1].name == Catalog[index]
              && cs[|cs| - 1].children == load.scene.children
    ensures r.state.handle == s.handle
  {
    match load
    case Rejected => Step(s, LoadFailure)
    case Loaded(scene) =>
      var id := FreshId(s, scene);
      var pivot := BuildPivot(id, index, scene);
      RunSwapEffects(s, index, pivot, id + 1);
      Step(Run(s.(nextId := id + 1), SwapEffects(s, index, pivot)), Fulfilled)
  }

  /** Every intermediate state of a swap: a node leaves the scene only when the lookup found
      it, and `selectedIndex` changes only with the last operation. */
  lemma SwapTrace(s: State, index: CatalogIndex, pivot: Node, next: nat)
    ensures var es := SwapEffects(s, index, pivot);
            var t := Trace(s.(nextId := next), es);
            && (forall i :: 0 <= i < |es| && es[i].Remove? ==> Outgoing(s) == Some(es[i].path))
            && (Outgoing(s).None? ==> forall i :: 0 <= i < |es| ==> !es[i].Remove?)
            && (forall i :: 0 <= i < |es| ==> t[i].selected == s.selected)
            && t[|es|].selected == index
  {
    var es := SwapEffects(s, index, pivot);
    var m := |es| - 2;
    assert es[m] == Add(pivot) && es[m + 1] == Commit(index);
  }

  /** The ids under a freshly built pivot are all below its own. */
  lemma PivotIds(s: State, index: CatalogIndex, scene: Node)
    ensures IdsBelow(BuildPivot(FreshId(s, scene), index, scene), FreshId(s, scene) + 1)
    ensures forall c :: c in BuildPivot(FreshId(s, scene), index, scene).children ==>
              IdsBelow(c, FreshId(s, scene))
  {
    var id := FreshId(s, scene);
    var pivot := BuildPivot(id, index, scene);
    IdsBelowUnfold(scene, id);
    forall j | 0 <= j < |pivot.children| ensures IdsBelow(pivot.children[j], id + 1) {
      IdsBelowRaise(pivot.children[j], id, id + 1);
    }
    IdsBelowUnfold(pivot, id + 1);
  }

  /** A resolved load keeps the scene shape, whatever entry it is for and whatever the current
      selection is when it resolves; a loaded one leaves exactly one pivot and every light
      where it was. */
  lemma UpdateKeepsInv(s: State, index: CatalogIndex, load: LoadOutcome)
    requires SceneInv(s)
    ensures SceneInv(UpdateModel(s, index, load).state)
    ensures load.Loaded? ==> |Pivots(UpdateModel(s, index, load).state.root)| == 1
    ensures Fixtures(UpdateModel(s, index, load).state.root) == Fixtures(s.root)
  {
    if load.Loaded? {
      var id := FreshId(s, load.scene);
      var pivot := BuildPivot(id, index, load.scene);
      PivotIds(s, index, load.scene);
      RunSwapEffects(s, index, pivot, id + 1);
      SwapKeepsShape(s.root, Catalog, Catalog[s.selected], s.nextId, pivot, id + 1);
    }
  }

  /** The state after the loads that have settled so far, in the order they settled. */
  function Settle(s: State, rs: seq<Resolution>): State
    decreases |rs|
  {
    if |rs| == 0 then s
    else UpdateModel(Settle(s, rs[..|rs| - 1]), rs[|rs| - 1].index, rs[|rs| - 1].load).state
  }

  /** Loads may settle in any order: the shape holds after every one of them, and the lights
      are never removed. */
  lemma {:induction false} SettleKeepsInv(s: State, rs: seq<Resolution>)
    requires SceneInv(s)
    decreases |rs|
    ensures SceneInv(Settle(s, rs))
    ensures Fixtures(Settle(s, rs).root) == Fixtures(s.root)
    ensures LastLoaded(rs).Some? ==> |Pivots(Settle(s, rs).root)| == 1
  {
    if |rs| > 0 {
      SettleKeepsInv(s, rs[..|rs| - 1]);
      UpdateKeepsInv(Settle(s, rs[..|rs| - 1]), rs[|rs| - 1].index, rs[|rs| - 1].load);
    }
  }

  /** The load that settles last decides what is shown; when every load was rejected nothing
      changed at all. */
  lemma {:induction false} LastSettledWins(s: State, rs: seq<Resolution>)
    decreases |rs|
    ensures LastLoaded(rs).Some? ==> Settle(s, rs).selected == LastLoaded(rs).value
    ensures LastLoaded(rs).None? ==> Settle(s, rs) == s
  {
    if |rs| > 0 {
      LastSettledWins(s, rs[..|rs| - 1]);
    }
  }

  /** The state before the first load resolves: entry 1 selected, no pivot, and nothing in the
      scene named after an entry. */
  ghost predicate Initial(s: State) {
    && s.selected == InitialIndex
    && s.root.name !in Catalog
    && (forall j :: 0 <= j < |s.root.children| ==> AvoidsNames(s.root.children[j], Catalog))
    && IdsBelow(s.root, s.nextId)
  }

  lemma InitialInv(s: State)
    requires Initial(s)
    ensures SceneInv(s)
    ensures Fixtures(s.root) == s.root.children
  {
    forall j | 0 <= j < |s.root.children| ensures s.root.children[j].name !in Catalog {
      AvoidsNamesUnfold(s.root.children[j], Catalog);
    }
    FilterNone(s.root.children, Catalog, true);
    FilterAll(s.root.children, Catalog, false);
  }

  /** From the initial state, after any loads settling in any order, the scene holds at most
      one pivot, named after the selected entry, and exactly one once a load has succeeded;
      the lights are the same throughout. */
  lemma SinglePivotFromStart(s: State, rs: seq<Resolution>)
    requires Initial(s)
    ensures var t := Settle(s, rs);
            && |Pivots(t.root)| <= 1
            && (forall c :: c in Pivots(t.root) ==> c.name == Catalog[t.selected])
            && (LastLoaded(rs).Some? ==> |Pivots(t.root)| == 1)
            && Fixtures(t.root) == s.root.children
  {
    InitialInv(s);
    SettleKeepsInv(s, rs);
  }

  /** The scene as the page builds it: an ambient light and two directional lights, all
      unnamed. Their ids are illustrative; only their order and freshness matter. */
  const SceneAtStart: Node :=
    Node(0, "", false, false, [
      Node(2, "", false, false, []),
      Node(3, "", false, false, []),
      Node(4, "", false, false, [])
    ])

  const Start: State := State(SceneAtStart, None, InitialIndex, 5)

  lemma StartIsInitial()
    ensures Initial(Start)
  {
    var cs := SceneAtStart.children;
    forall j | 0 <= j < |cs| ensures AvoidsNames(cs[j], Catalog) && IdsBelow(cs[j], 5) {
      AvoidsNamesUnfold(cs[j], Catalog);
      IdsBelowUnfold(cs[j], 5);
    }
    IdsBelowUnfold(SceneAtStart, 5);
  }

  /** Re-selecting the displayed entry, even right after the first load, leaves a single
      pivot for it and the three lights untouched. */
  lemma ReselectScenario(b: Node, b': Node)
    ensures var s1 := UpdateModel(Start, InitialIndex, Loaded(b)).state;
            var s2 := UpdateModel(s1, InitialIndex, Loaded(b')).state;
            && s2.selected == 1
            && |Pivots(s2.root)| == 1 && Pivots(s2.root)[0].name == Catalog[1]
            && Fixtures(s2.root) == SceneAtStart.children
  {
    StartIsInitial();
    InitialInv(Start);
    var s1 := UpdateModel(Start, InitialIndex, Loaded(b)).state;
    UpdateKeepsInv(Start, InitialIndex, Loaded(b));
    UpdateKeepsInv(s1, InitialIndex, Loaded(b'));
  }
}

=== FILE: scene_graph.dfy ===
/** A value model of the part of the three.js scene graph that the model swap touches:
    Object3D nodes, `getObjectByName`, `add`, `remove`, and the `traverse` that turns on
    shadow casting for meshes. Nodes are immutable values; a node's identity is its `id`. */
module SceneGraph {

  datatype Option<+T> = None | Some(value: T)

  /** An Object3D. `id` is three.js's object id, drawn from one global counter and never
      reused; `isMesh` says whether the object is an instance of Mesh. */
  datatype Node = Node(id: nat, name: string, isMesh: bool, castShadow: bool, children: seq<Node>)

  /** Child positions leading from a node down to one of its descendants; `[]` is the node itself. */
  type Path = seq<nat>

  function Max(a: nat, b: nat): nat {
    if a < b then b else a
  }

  predicate ValidPath(n: Node, p: Path)
    decreases |p|
  {
    |p| == 0 || (p[0] < |n.children| && ValidPath(n.children[p[0]], p[1..]))
  }

  function At(n: Node, p: Path): Node
    requires ValidPath(n, p)
    decreases |p|
  {
    if |p| == 0 then n else At(n.children[p[0]], p[1..])
  }

  /** A path through child `j` is a path inside that child. */
  lemma ChildPath(n: Node, j: nat, p: Path)
    requires j < |n.children|
    ensures ValidPath(n, [j] + p) <==> ValidPath(n.children[j], p)
    ensures ValidPath(n.children[j], p) ==> At(n, [j] + p) == At(n.children[j], p)
  {
    assert ([j] + p)[0] == j;
    assert ([j] + p)[1..] == p;
  }

  /** `q` is visited strictly before `p` by a depth-first walk that visits a node before its
      children and the children in order (the order of `traverse` and `getObjectByName`). */
  predicate Before(q: Path, p: Path)
    decreases |p|
  {
    |p| > 0 && (|q| == 0 || q[0] < p[0] || (q[0] == p[0] && Before(q[1..], p[1..])))
  }

  /** `getObjectByName`: the node itself if it has the name, otherwise the first match
      among the children, searched in order and each one depth-first. */
  function Find(n: Node, name: string): (r: Option<Path>)
    decreases n, |n.children| + 1
    ensures r.Some? ==> ValidPath(n, r.value) && At(n, r.value).name == name
  {
    if n.name == name then Some([]) else FindFrom(n, 0, name)
  }

  /** The search of `Find` over the children of `n` from position `i` on. */
  function FindFrom(n: Node, i: nat, name: string): (r: Option<Path>)
    requires i <= |n.children|
    decreases n, |n.children| - i
    ensures r.Some? ==> ValidPath(n, r.value) && |r.value| > 0 && i <= r.value[0]
                        && At(n, r.value).name == name
  {
    if i == |n.children| then None
    else
      match Find(n.children[i], name)
      case Some(p) =>
        ChildPath(n, i, p);
        Some([i] + p)
      case None => FindFrom(n, i + 1, name)
  }

  /** `Find` returns the FIRST node with the name: every node that has it sits at the found
      path or after it, and `Find` fails only when no node has the name. */
  lemma {:induction false} FindFirst(n: Node, name: string)
    decreases n, |n.children| + 1
    ensures forall q :: ValidPath(n, q) && At(n, q).name == name ==>
              Find(n, name).Some? && !Before(q, Find(n, name).value)
  {
    if n.name != name {
      FindFromFirst(n, 0, name);
      forall q | ValidPath(n, q) && At(n, q).name == name
        ensures Find(n, name).Some? && !Before(q, Find(n, name).value)
      {
        assert |q| > 0;
      }
    }
  }

  lemma {:induction false} FindFromFirst(n: Node, i: nat, name: string)
    requires i <= |n.children|
    decreases n, |n.children| - i
    ensures forall q :: ValidPath(n, q) && |q| > 0 && i <= q[0] && At(n, q).name == name ==>
              FindFrom(n, i, name).Some? && !Before(q, FindFrom(n, i, name).value)
  {
    if i < |n.children| {
      var c := n.children[i];
      FindFirst(c, name);
      FindFromFirst(n, i + 1, name);
      forall q | ValidPath(n, q) && |q| > 0 && i <= q[0] && At(n, q).name == name
        ensures FindFrom(n, i, name).Some? && !Before(q, FindFrom(n, i, name).value)
      {
        if q[0] == i {
          ChildPath(n, i, q[1..]);
          assert [i] + q[1..] == q;
          assert ValidPath(c, q[1..]) && At(c, q[1..]).name == name;
          var p := Find(c, name).value;
          assert FindFrom(n, i, name) == Some([i] + p);
          assert ([i] + p)[1..] == p;
        }
      }
    }
  }

  /** No node of `n` carries a name from `names`. */
  ghost predicate AvoidsNames(n: Node, names: seq<string>) {
    forall p :: ValidPath(n, p) ==> At(n, p).name !in names
  }

  /** Every node of `n` has an id below `bound`. */
  ghost predicate IdsBelow(n: Node, bound: nat) {
    forall p :: ValidPath(n, p) ==> At(n, p).id < bound
  }

  /** Some node of `n` has the id `id`. */
  ghost predicate HasId(n: Node, id: nat) {
    exists p :: ValidPath(n, p) && At(n, p).id == id
  }

  lemma AvoidsNamesUnfold(n: Node, names: seq<string>)
    ensures AvoidsNames(n, names) <==>
              n.name !in names && forall j :: 0 <= j < |n.children| ==> AvoidsNames(n.children[j], names)
  {
    if AvoidsNames(n, names) {
      assert ValidPath(n, []);
      forall j | 0 <= j < |n.children| ensures AvoidsNames(n.children[j], names) {
        forall p | ValidPath(n.children[j], p) ensures At(n.children[j], p).name !in names {
          ChildPath(n, j, p);
        }
      }
    }
    if n.name !in names && forall j :: 0 <= j < |n.children| ==> AvoidsNames(n.children[j], names) {
      forall p | ValidPath(n, p) ensures At(n, p).name !in names {
        if |p| > 0 {
          ChildPath(n, p[0], p[1..]);
          assert [p[0]] + p[1..] == p;
        }
      }
    }
  }

  lemma IdsBelowUnfold(n: Node, bound: nat)
    ensures IdsBelow(n, bound) <==>
              n.id < bound && forall j :: 0 <= j < |n.children| ==> IdsBelow(n.children[j], bound)
  {
    if IdsBelow(n, bound) {
      assert ValidPath(n, []);
      forall j | 0 <= j < |n.children| ensures IdsBelow(n.children[j], bound) {
        forall p | ValidPath(n.children[j], p) ensures At(n.children[j], p).id < bound {
          ChildPath(n, j, p);
        }
      }
    }
    if n.id < bound && forall j :: 0 <= j < |n.children| ==> IdsBelow(n.children[j], bound) {
      forall p | ValidPath(n, p) ensures At(n, p).id < bound {
        if |p| > 0 {
          ChildPath(n, p[0], p[1..]);
          assert [p[0]] + p[1..] == p;
        }
      }
    }
  }

  /** The largest id in `n`. */
  function MaxId(n: Node): nat
    decreases n, |n.children| + 1
  {
    Max(n.id, MaxIdFrom(n, 0))
  }

  function MaxIdFrom(n: Node, i: nat): nat
    requires i <= |n.children|
    decreases n, |n.children| - i
  {
    if i == |n.children| then 0 else Max(MaxId(n.children[i]), MaxIdFrom(n, i + 1))
  }

  /** `MaxId` bounds every id in the tree. */
  lemma {:induction false} MaxIdBound(n: Node)
    decreases n, |n.children| + 1
    ensures IdsBelow(n, MaxId(n) + 1)
  {
    MaxIdFromBound(n, 0);
    IdsBelowUnfold(n, MaxId(n) + 1);
  }

  lemma {:induction false} MaxIdFromBound(n: Node, i: nat)
    requires i <= |n.children|
    decreases n, |n.children| - i
    ensures forall j :: i <= j < |n.children| ==> IdsBelow(n.children[j], MaxIdFrom(n, i) + 1)
  {
    if i < |n.children| {
      MaxIdBound(n.children[i]);
      MaxIdFromBound(n, i + 1);
      forall j | i <= j < |n.children| ensures IdsBelow(n.children[j], MaxIdFrom(n, i) + 1) {
        if j == i {
          IdsBelowRaise(n.children[j], MaxId(n.children[i]) + 1, MaxIdFrom(n, i) + 1);
        } else {
          IdsBelowRaise(n.children[j], MaxIdFrom(n, i + 1) + 1, MaxIdFrom(n, i) + 1);
        }
      }
    }
  }

  lemma IdsBelowRaise(n: Node, b: nat, b': nat)
    requires IdsBelow(n, b) && b <= b'
    ensures IdsBelow(n, b')
  {
  }

  /** `parent.add(child)`: the child is appended after the existing children. */
  function AddChild(n: Node, c: Node): Node {
    n.(children := n.children + [c])
  }

  /** The children with the one at `k` taken out. */
  function Without(cs: seq<Node>, k: nat): (r: seq<Node>)
    requires k < |cs|
    ensures |r| + 1 == |cs|
    ensures forall j :: 0 <= j < |r| ==> r[j] == cs[if j < k then j else j + 1]
  {
    cs[..k] + cs[k + 1..]
  }

  /** `parent.remove(object)`: the object is dropped when it is a direct child; the node
      itself or a deeper descendant is not among the children, and nothing changes. */
  function RemoveChild(n: Node, p: Path): Node {
    if |p| == 1 && p[0] < |n.children| then n.(children := Without(n.children, p[0])) else n
  }

  /** Adding keeps every existing node where it was, and the new child is found at the end. */
  lemma AddKeepsPaths(n: Node, c: Node)
    ensures forall p :: ValidPath(n, p) && |p| > 0 ==>
              ValidPath(AddChild(n, c), p) && At(AddChild(n, c), p) == At(n, p)
    ensures ValidPath(AddChild(n, c), [|n.children|]) && At(AddChild(n, c), [|n.children|]) == c
    ensures AddChild(n, c).id == n.id && AddChild(n, c).name == n.name
  {
    var r := AddChild(n, c);
    forall p | ValidPath(n, p) && |p| > 0 ensures ValidPath(r, p) && At(r, p) == At(n, p) {
      assert r.children[p[0]] == n.children[p[0]];
    }
    ChildPath(r, |n.children|, []);
    assert [|n.children|] + [] == [|n.children|];
  }

  /** Ids present before an `add` are still present after it. */
  lemma AddKeepsIds(n: Node, c: Node, id: nat)
    requires HasId(n, id)
    ensures HasId(AddChild(n, c), id)
  {
    var p :| ValidPath(n, p) && At(n, p).id == id;
    AddKeepsPaths(n, c);
    if |p| == 0 {
      assert ValidPath(AddChild(n, c), []) && At(AddChild(n, c), []).id == id;
    } else {
      assert ValidPath(AddChild(n, c), p) && At(AddChild(n, c), p).id == id;
    }
  }

  /** `remove` undoes `add`: removing the child just added gives back the original node. */
  lemma RemoveUndoesAdd(n: Node, c: Node)
    ensures RemoveChild(AddChild(n, c), [|n.children|]) == n
  {
    AddKeepsPaths(n, c);
    var k := |n.children|;
    assert (n.children + [c])[..k] == n.children;
  }

  /** `remove` of a direct child drops exactly that child and keeps the others in order;
      any other path leaves the node as it was. */
  lemma RemoveDropsOneChild(n: Node, p: Path)
    requires ValidPath(n, p)
    ensures |p| == 1 ==> |RemoveChild(n, p).children| + 1 == |n.children|
    ensures |p| == 1 ==> multiset(RemoveChild(n, p).children) + multiset{At(n, p)} == multiset(n.children)
    ensures |p| == 1 ==> forall j :: 0 <= j < |n.children| && j != p[0] ==>
              n.children[j] == RemoveChild(n, p).children[if j < p[0] then j else j - 1]
    ensures |p| != 1 ==> RemoveChild(n, p) == n
    ensures RemoveChild(n, p).id == n.id && RemoveChild(n, p).name == n.name
  {
    if |p| == 1 {
      var k := p[0];
      var cs := n.children;
      assert At(n, p) == At(cs[k], p[1..]) == cs[k];
      SpliceMultiset(cs, k);
    }
  }

  lemma SpliceMultiset(cs: seq<Node>, k: nat)
    requires k < |cs|
    ensures multiset(cs[..k] + cs[k + 1..]) + multiset{cs[k]} == multiset(cs)
  {
    assert cs == cs[..k] + [cs[k]] + cs[k + 1..];
  }

  /** The `traverse` of the loaded scene: every Mesh gets `castShadow = true`; nothing else
      about any node changes. */
  function MarkShadows(n: Node): Node
    decreases n
  {
    Node(n.id, n.name, n.isMesh, n.castShadow || n.isMesh,
         seq(|n.children|, i requires 0 <= i < |n.children| => MarkShadows(n.children[i])))
  }

  /** The traversal reaches every node: the marked tree has the same shape, and the node at
      each path is the marked version of the original node at that path. */
  lemma {:induction false} MarkShadowsAt(n: Node, p: Path)
    decreases |p|
    ensures ValidPath(MarkShadows(n), p) <==> ValidPath(n, p)
    ensures ValidPath(n, p) ==> At(MarkShadows(n), p) == MarkShadows(At(n, p))
  {
    if |p| > 0 && p[0] < |n.children| {
      MarkShadowsAt(n.children[p[0]], p[1..]);
    }
  }

  /** After the traversal every mesh casts shadows, a node that is not a mesh keeps its own
      `castShadow`, and ids, names, kinds and child counts are untouched. */
  lemma ShadowTraversal(n: Node)
    ensures forall p :: ValidPath(MarkShadows(n), p) <==> ValidPath(n, p)
    ensures forall p :: ValidPath(n, p) && At(n, p).isMesh ==> At(MarkShadows(n), p).castShadow
    ensures forall p :: ValidPath(n, p) && !At(n, p).isMesh ==>
              At(MarkShadows(n), p).castShadow == At(n, p).castShadow
    ensures forall p :: ValidPath(n, p) ==>
              && At(MarkShadows(n), p).id == At(n, p).id
              && At(MarkShadows(n), p).name == At(n, p).name
              && At(MarkShadows(n), p).isMesh == At(n, p).isMesh
              && |At(MarkShadows(n), p).children| == |At(n, p).children|
  {
    forall p ensures ValidPath(MarkShadows(n), p) <==> ValidPath(n, p) {
      MarkShadowsAt(n, p);
    }
    forall p | ValidPath(n, p) ensures At(MarkShadows(n), p) == MarkShadows(At(n, p)) {
      MarkShadowsAt(n, p);
    }
  }

  /** The traversal changes no id, so it keeps every id bound. */
  lemma MarkShadowsKeepsIds(n: Node, bound: nat)
    ensures IdsBelow(MarkShadows(n), bound) <==> IdsBelow(n, bound)
  {
    ShadowTraversal(n);
  }
}

=== FILE: swap.dfy ===
/** What the two `updateModel` variants share: the catalog, the state one resolved load reads
    and writes, the primitive scene operations a swap performs, and the shape the attachment
    point keeps from swap to swap. */
module Swap {
  import opened SceneGraph

  /** The glTF files offered in the dropdown, in dropdown order. */
  const Catalog: seq<string> := [
    "Suzanne.glb",
    "SuzannePisincipledBSDF.glb",
    "SuzannePisincipledBSDFMultiMaterial.glb",
    "SuzannePisincipledBSDFTextured.glb"
  ]

  /** `selectedIndex` before any load has resolved; also the index of the first load. */
  const InitialIndex: nat := 1

  type CatalogIndex = i: nat | i < |Catalog|

  /** What the awaited `loadModel` promise settles to: the glTF's `scene`, or a rejection. */
  datatype LoadOutcome = Loaded(scene: Node) | Rejected

  /** The state a resolved load reads and writes: the attachment point (`markerGroup`, or the
      scene itself in the plain variant), the id of the transform handle's target,
      `selectedIndex`, and the next value of three.js's Object3D id counter. */
  datatype State = State(root: Node, handle: Option<nat>, selected: CatalogIndex, nextId: nat)

  datatype Outcome = Fulfilled | LoadFailure

  /** How an `updateModel` call settles, with the state it leaves behind. */
  datatype Step = Step(state: State, outcome: Outcome)

  /** One load settling for the entry `index`; loads may settle in any order. */
  datatype Resolution = Resolution(index: CatalogIndex, load: LoadOutcome)

  /** The URL `loadModel` fetches for an entry. */
  function ModelUrl(index: CatalogIndex): string {
    "/models/" + Catalog[index]
  }

  /** Distinct entries are fetched from distinct URLs, so a load stands for one entry. */
  lemma ModelUrlInjective(i: CatalogIndex, j: CatalogIndex)
    ensures ModelUrl(i) == ModelUrl(j) <==> i == j
  {
    if ModelUrl(i) == ModelUrl(j) {
      assert Catalog[i] == ModelUrl(i)[|"/models/"|..];
      assert Catalog[j] == ModelUrl(j)[|"/models/"|..];
      CatalogDistinct(i, j);
    }
  }

  /** No two catalog entries share a name, so a name identifies its entry. */
  lemma CatalogDistinct(i: CatalogIndex, j: CatalogIndex)
    ensures Catalog[i] == Catalog[j] <==> i == j
  {
    if i != j {
      assert Catalog[i][|Catalog[i]| - 5] != Catalog[j][|Catalog[j]| - 5] || |Catalog[i]| != |Catalog[j]|;
    }
  }

  /** The primitive scene operations of a swap. */
  datatype Effect =
    | Detach                       // the handle lets go of its target
    | Remove(path: Path)           // the attachment point removes the node at `path`
    | Add(node: Node)              // the attachment point appends `node`
    | Attach(target: nat)          // the handle takes the node with id `target`
    | Commit(index: CatalogIndex)  // `selectedIndex` becomes `index`

  function Apply(s: State, e: Effect): State {
    match e
    case Detach => s.(handle := None)
    case Remove(p) => s.(root := RemoveChild(s.root, p))
    case Add(c) => s.(root := AddChild(s.root, c))
    case Attach(id) => s.(handle := Some(id))
    case Commit(i) => s.(selected := i)
  }

  function Run(s: State, es: seq<Effect>): State
    decreases |es|
  {
    if |es| == 0 then s else Run(Apply(s, es[0]), es[1..])
  }

  /** Every state a run of effects passes through, from the state before the first effect to
      the state after the last. */
  function Trace(s: State, es: seq<Effect>): (t: seq<State>)
    decreases |es|
    ensures |t| == |es| + 1
    ensures t[0] == s && t[|es|] == Run(s, es)
    ensures forall i :: 0 <= i < |es| ==> t[i + 1] == Apply(t[i], es[i])
  {
    if |es| == 0 then [s] else [s] + Trace(Apply(s, es[0]), es[1..])
  }

  /** The node `getObjectByName(list[selectedIndex])` finds: keyed by the selection that is
      current when the load resolves, i.e. the outgoing one. */
  function Outgoing(s: State): Option<Path> {
    Find(s.root, Catalog[s.selected])
  }

  /** The id `new Object3D()` receives: three.js's counter has already moved past every object
      in the graph and every object the loader created. */
  function FreshId(s: State, scene: Node): (id: nat)
    ensures s.nextId <= id && IdsBelow(scene, id)
  {
    MaxIdBound(scene);
    IdsBelowRaise(scene, MaxId(scene) + 1, Max(s.nextId, MaxId(scene) + 1));
    Max(s.nextId, MaxId(scene) + 1)
  }

  /** The attachment point after a swap: the found node removed (when it is a child), the
      pivot appended. */
  function Swapped(root: Node, found: Option<Path>, pivot: Node): Node {
    AddChild(if found.Some? then RemoveChild(root, found.value) else root, pivot)
  }

  /** The children whose name is (`inNames`) or is not (`!inNames`) one of `names`, in order. */
  function Filter(cs: seq<Node>, names: seq<string>, inNames: bool): seq<Node>
    decreases |cs|
  {
    if |cs| == 0 then []
    else (if (cs[0].name in names) == inNames then [cs[0]] else []) + Filter(cs[1..], names, inNames)
  }

  /** The pivots hanging under the attachment point. */
  function Pivots(n: Node): seq<Node> {
    Filter(n.children, Catalog, true)
  }

  /** Everything else under the attachment point: lights, shadow plane, handle gizmo. */
  function Fixtures(n: Node): seq<Node> {
    Filter(n.children, Catalog, false)
  }

  /** The shape an attachment point keeps, for a list of entry `names` and the `current`
      entry: it is not itself named after an entry, no other child contains a node named after
      an entry, the children named after entries are none or a single one named `current`, and
      every id in the graph is below `bound`. */
  ghost predicate Shape(root: Node, names: seq<string>, current: string, bound: nat) {
    && root.name !in names
    && IdsBelow(root, bound)
    && (forall j :: 0 <= j < |root.children| && root.children[j].name !in names ==>
          AvoidsNames(root.children[j], names))
    && (Filter(root.children, names, true) == []
        || (|Filter(root.children, names, true)| == 1 && Filter(root.children, names, true)[0].name == current))
  }

  /** The swap state has that shape for the catalog and the selected entry. */
  ghost predicate SceneInv(s: State) {
    Shape(s.root, Catalog, Catalog[s.selected], s.nextId)
  }

  lemma {:induction false} FilterAppend(a: seq<Node>, b: seq<Node>, names: seq<string>, f: bool)
    decreases |a|
    ensures Filter(a + b, names, f) == Filter(a, names, f) + Filter(b, names, f)
  {
    if |a| > 0 {
      assert (a + b)[0] == a[0];
      assert (a + b)[1..] == a[1..] + b;
      FilterAppend(a[1..], b, names, f);
    } else {
      assert a + b == b;
    }
  }

  lemma {:induction false} FilterNone(cs: seq<Node>, names: seq<string>, f: bool)
    decreases |cs|
    ensures Filter(cs, names, f) == [] <==> forall j :: 0 <= j < |cs| ==> (cs[j].name in names) != f
  {
    if |cs| > 0 {
      FilterNone(cs[1..], names, f);
      if forall j :: 1 <= j < |cs| ==> (cs[j].name in names) != f {
        assert forall j :: 0 <= j < |cs| - 1 ==> (cs[1..][j].name in names) != f;
      }
    }
  }

  lemma {:induction false} FilterAll(cs: seq<Node>, names: seq<string>, f: bool)
    decreases |cs|
    requires forall j :: 0 <= j < |cs| ==> (cs[j].name in names) == f
    ensures Filter(cs, names, f) == cs
  {
    if |cs| > 0 {
      FilterAll(cs[1..], names, f);
      assert [cs[0]] + cs[1..] == cs;
    }
  }

  /** A single named child sits at one position, and every other child is unnamed. */
  lemma {:induction false} SinglePosition(cs: seq<Node>, names: seq<string>) returns (k: nat)
    decreases |cs|
    requires |Filter(cs, names, true)| == 1
    ensures k < |cs| && cs[k] == Filter(cs, names, true)[0] && cs[k].name in names
    ensures forall j :: 0 <= j < |cs| && j != k ==> cs[j].name !in names
  {
    if cs[0].name in names {
      FilterNone(cs[1..], names, true);
      k := 0;
      assert forall j :: 1 <= j < |cs| ==> cs[j] == cs[1..][j - 1];
    } else {
      var k' := SinglePosition(cs[1..], names);
      k := k' + 1;
      assert forall j :: 1 <= j < |cs| ==> cs[j] == cs[1..][j - 1];
    }
  }

  /** Under the shape, the lookup by the current name finds the single named child itself, a
      direct child, and finds nothing when there is no named child. */
  lemma LookupFindsPivot(root: Node, names: seq<string>, current: string, bound: nat)
    requires Shape(root, names, current, bound)
    requires current in names
    ensures Find(root, current).None? <==> Filter(root.children, names, true) == []
    ensures Find(root, current).Some? ==>
              && |Find(root, current).value| == 1
              && Find(root, current).value[0] < |root.children|
              && root.children[Find(root, current).value[0]] == Filter(root.children, names, true)[0]
              && forall j :: 0 <= j < |root.children| && j != Find(root, current).value[0] ==>
                   root.children[j].name !in names
  {
    var cs := root.children;
    if Filter(cs, names, true) == [] {
      FilterNone(cs, names, true);
      AvoidsNamesUnfold(root, names);
      if Find(root, current).Some? {
        assert false;
      }
    } else {
      var k := SinglePosition(cs, names);
      ChildPath(root, k, []);
      assert [k] + [] == [k];
      assert ValidPath(root, [k]) && At(root, [k]).name == current;
      FindFirst(root, current);
      var p := Find(root, current).value;
      assert |p| > 0;
      var j := p[0];
      ChildPath(root, j, p[1..]);
      assert [j] + p[1..] == p;
      assert At(cs[j], p[1..]).name == current;
      if j != k {
        assert false;
      }
      if |p| > 1 {
        assert Before([k], p);
        assert false;
      }
    }
  }

  /** Dropping the one named child leaves exactly the unnamed ones. */
  lemma DropNamed(cs: seq<Node>, names: seq<string>, k: nat)
    requires k < |cs| && cs[k].name in names
    requires forall j :: 0 <= j < |cs| && j != k ==> cs[j].name !in names
    ensures Filter(cs, names, false) == Without(cs, k)
  {
    var a, b := cs[..k], cs[k + 1..];
    assert cs == a + [cs[k]] + b;
    FilterAppend(a + [cs[k]], b, names, false);
    FilterAppend(a, [cs[k]], names, false);
    FilterAll(a, names, false);
    FilterAll(b, names, false);
    assert [cs[k]][1..] == [];
    assert Filter([cs[k]], names, false) == [];
    assert Filter(cs, names, false) == a + b;
  }

  /** The children a swap keeps: every child but the outgoing named one, in order. They are
      exactly the unnamed children, each one an old child. */
  lemma KeptChildren(root: Node, names: seq<string>, current: string, bound: nat, pivot: Node)
    returns (kept: seq<Node>)
    requires Shape(root, names, current, bound) && current in names
    ensures Swapped(root, Find(root, current), pivot).children == kept + [pivot]
    ensures kept == Filter(root.children, names, false)
    ensures forall j :: 0 <= j < |kept| ==> kept[j].name !in names && kept[j] in root.children
  {
    var cs := root.children;
    LookupFindsPivot(root, names, current, bound);
    if Find(root, current).Some? {
      var k := Find(root, current).value[0];
      DropNamed(cs, names, k);
      kept := Without(cs, k);
    } else {
      kept := cs;
      FilterNone(cs, names, true);
      FilterAll(cs, names, false);
    }
  }

  /** A swap keeps the shape: afterwards the only named child is the new pivot, the unnamed
      children are the same nodes in the same order, and the bound is past every id. */
  lemma SwapKeepsShape(root: Node, names: seq<string>, current: string, bound: nat, pivot: Node, next: nat)
    requires Shape(root, names, current, bound) && current in names
    requires pivot.name in names
    requires bound <= pivot.id && IdsBelow(pivot, next)
    ensures var root' := Swapped(root, Find(root, current), pivot);
            && Shape(root', names, pivot.name, next)
            && Filter(root'.children, names, true) == [pivot]
            && Filter(root'.children, names, false) == Filter(root.children, names, false)
  {
    var root' := Swapped(root, Find(root, current), pivot);
    var kept := KeptChildren(root, names, current, bound, pivot);
    FilterNone(kept, names, true);
    FilterAll(kept, names, false);
    FilterAppend(kept, [pivot], names, true);
    FilterAppend(kept, [pivot], names, false);
    IdsBelowUnfold(root, bound);
    IdsBelowUnfold(pivot, next);
    forall j | 0 <= j < |root'.children| ensures IdsBelow(root'.children[j], next) {
      if j < |kept| {
        var i :| 0 <= i < |root.children| && root.children[i] == kept[j];
        IdsBelowRaise(root.children[i], bound, next);
      }
    }
    IdsBelowUnfold(root', next);
    forall j | 0 <= j < |root'.children| && root'.children[j].name !in names
      ensures AvoidsNames(root'.children[j], names)
    {
      var i :| 0 <= i < |root.children| && root.children[i] == kept[j];
    }
  }

  /** The entry the last loaded (not rejected) resolution was for, if any. */
  function LastLoaded(rs: seq<Resolution>): (r: Option<CatalogIndex>)
    decreases |rs|
    ensures r.None? <==> forall i :: 0 <= i < |rs| ==> rs[i].load.Rejected?
    ensures r.Some? ==> exists i :: 0 <= i < |rs| && rs[i].load.Loaded? && rs[i].index == r.value
                          && forall j :: i < j < |rs| ==> rs[j].load.Rejected?
  {
    if |rs| == 0 then None
    else if rs[|rs| - 1].load.Loaded? then Some(rs[|rs| - 1].index)
    else LastLoaded(rs[..|rs| - 1])
  }

  /** In a node whose children are `kept` followed by `pivot`, only the pivot carries the
      pivot's id when the node itself, the kept children and the pivot's children all have
      smaller ids. */
  lemma OnlyPivotHasId(n: Node, kept: seq<Node>, pivot: Node)
    requires n.children == kept + [pivot]
    requires n.id < pivot.id
    requires forall j :: 0 <= j < |kept| ==> IdsBelow(kept[j], pivot.id)
    requires forall c :: c in pivot.children ==> IdsBelow(c, pivot.id)
    ensures forall q :: ValidPath(n, q) && q != [|kept|] ==> At(n, q).id != pivot.id
  {
    forall q | ValidPath(n, q) && q != [|kept|] ensures At(n, q).id < pivot.id {
      if |q| > 0 {
        var j := q[0];
        ChildPath(n, j, q[1..]);
        assert [j] + q[1..] == q;
        if j < |kept| {
          assert n.children[j] == kept[j];
        } else {
          var q' := q[1..];
          assert |q'| > 0;
          ChildPath(pivot, q'[0], q'[1..]);
          assert [q'[0]] + q'[1..] == q';
          assert pivot.children[q'[0]] in pivot.children;
        }
      }
    }
  }
}
